=== FILE: README.md ===
# Hand-detection video stream: a Dafny model

The system streams webcam frames from a React component (`VideoStream`) over
a WebSocket to a FastAPI service that runs a hand detector on each frame and
replies with the annotated frame and, when a hand was found, a crop around
it. This project models the two sequential decision cores under that
plumbing and proves properties of them:

- **Client** (`client.dfy`): the component as a reducer over an immutable
  state (`processedImage`, `croppedImage`, `showCropped`, the pending decay
  deadline, the socket's `readyState`, the refs, whether the interval runs)
  driven by events on a logical millisecond clock: camera grant/denial,
  socket open/close, `Tick` (the 200 ms `sendFrame` interval), `Message`,
  `Toggle`, `Advance` (time passing; the 500 ms decay timeout fires inside
  it when due) and `Unmount`. JavaScript semantics the code relies on are
  in `json.dfy`: truthiness, property access on a parsed value (reading a
  property of `null` throws), `Object.is` against a freshly parsed value,
  and `includes` on strings and arrays.
- **Server** (`server.dfy`, `crop.dfy`, `py_slice.dfy`, `raster.dfy`,
  `data_uri.dfy`): one iteration of the `video_stream` loop — split the
  data URI at its first comma, decode, skip an empty frame, clamp the
  bounding box, crop with margins under Python slice semantics, choose the
  `cropped` value three ways, update the one-second FPS window, reply — and
  the loop over a session's messages until one raises.
- **Pipeline** (`pipeline.dfy`): the two ends together — a sent frame
  reaches the server's base64 decoder intact, and the server's replies
  update the display as intended and never make the render throw.

Foreign calls (base64 decode/encode, `cv2.imdecode`/`imencode`, the hand
detector, the `putText` overlay) are function-valued fields of
`Server.Vision`, left uninterpreted; base64 text is modelled only by its
alphabet (`DataUri.Base64Text`). The browser's canvas encoder is the
base64 text carried by each `Tick` event.

Behaviour of the code worth knowing:

- Teardown only closes the socket: the interval's cleanup function is
  returned from `startStreaming` and discarded, so the interval keeps
  firing; React itself runs the decay effect's cleanup (cancelling the
  timeout) and detaches the refs. The camera stream is never stopped.
- `processed` and `cropped` are stored only when truthy, not whenever
  present: `""` and `null` are ignored.
- The decay timeout is re-armed only when `croppedImage` changes (`Object.is`),
  not on every update: an identical string does not extend its life.
- If the camera is granted after the component unmounted, a socket is still
  created and may open; the detached refs are what keep it from sending.
- A peer that sends a truthy `cropped` that is neither a string nor an array
  (a number, `true`, an object) makes `croppedImage.includes` throw during
  render once the cropped view is on. There is no error boundary, so React
  unmounts the tree: the socket is closed and sending stops. The real
  server never sends such a value.

## Model

| member | source | states |
|---|---|---|
| Client.Initial | frontend/src/components/VideoStream.jsx:6-10 | the component starts with both images null, the cropped view hidden, no socket, and in a state satisfying the invariant |
| Client.OnTick | frontend/src/components/VideoStream.jsx:56-75 | a tick sends exactly one text iff the interval runs, both refs are set and the socket is open (`readyState === 1`), never changes state, and what it sends splits into the JPEG header and the frame's base64 text |
| Client.OnData | frontend/src/components/VideoStream.jsx:31-40 | a truthy `processed` replaces the processed image and an absent, null or empty one leaves it; a truthy `cropped` goes through the cropped setter and any other leaves the cropped image and its timeout alone; a `null` message (TypeError caught) or an unmounted component changes nothing; nothing but the two images and the deadline ever changes |
| Client.SetCropped | frontend/src/components/VideoStream.jsx:89-97 | a value identical to the shown one changes nothing (no re-arm); a new truthy value replaces the old and arms exactly one deadline 500 ms from now, cancelling any pending one; a falsy one arms nothing |
| Client.Elapse | frontend/src/components/VideoStream.jsx:91-93 | the clock moves forward by the elapsed time; once it reaches the pending deadline the cropped image becomes null and nothing is re-armed, otherwise the image and deadline stay; nothing else changes |
| Client.Close | frontend/src/components/VideoStream.jsx:85 | closing leaves the socket in a non-open state and leaves an already closing or closed socket as it is |
| Client.Teardown | frontend/src/components/VideoStream.jsx:84-86 | unmounting closes an existing socket, cancels the decay timeout, detaches the refs, and leaves the interval and the images as they were |
| Client.Step | frontend/src/components/VideoStream.jsx:13-113 | every event followed by its re-render preserves the invariant (consistency plus a render that does not throw); an unmount is exactly the teardown cleanups, and a re-render that would throw replaces the handler's state by its teardown (socket closed, timeout cancelled, refs detached); only ticks send, and a send leaves the state unchanged; nothing remounts; a component still mounted is in the state its handler produced |
| Client.Dispatch | frontend/src/components/VideoStream.jsx:17-102 | each handler keeps the state consistent (refs follow mounting, a socket implies the camera resolved, the interval implies a socket, a truthy cropped image of a mounted component has one deadline at most 500 ms ahead); only ticks send and sending changes nothing; nothing remounts |
| Client.GrantOpensAndStreams | frontend/src/components/VideoStream.jsx:24-29 | a camera grant while the request is pending creates a connecting socket; the server accepting it opens the socket and starts the interval; the next tick then sends the frame as a JPEG data URI |
| Client.FirstTickAfterOpenSends | frontend/src/components/VideoStream.jsx:24-78 | from mount, camera grant, socket open and one tick send exactly one message: the JPEG data URI of the captured frame |
| Client.NonStringCroppedCrashes | frontend/src/components/VideoStream.jsx:113 | a truthy non-string, non-array `cropped` arriving while the cropped view is on unmounts the component, leaves its socket closing, and nothing is sent afterwards |
| Client.Run | frontend/src/components/VideoStream.jsx:13-102 | a sequence of events sends at most one text per event and keeps the invariant |
| Client.ParseErrorIsTransparent | frontend/src/components/VideoStream.jsx:32-39 | text that fails `JSON.parse` leaves no trace: the rest of the events run exactly as if it had not arrived |
| Client.UnmountedNeverSends | frontend/src/components/VideoStream.jsx:62 | after unmounting no event sequence ever sends, a late camera grant and a socket that then opens included |
| Client.ClosedSocketNeverSends | frontend/src/components/VideoStream.jsx:62 | once the socket is closing or closed it never reopens and no tick sends, even with the refs still attached |
| Client.UnmountStopsSending | frontend/src/components/VideoStream.jsx:78-86 | teardown leaves the interval running, yet nothing is sent after it |
| Client.ToggleOnlyFlips | frontend/src/components/VideoStream.jsx:102 | unless showing the held value makes the render throw, the button flips `showCropped` and changes nothing else (images, deadline, socket, clock) and a second click restores the state; when it does throw, the result is the teardown of the flipped state |
| Client.QuietClearsAtDeadline | frontend/src/components/VideoStream.jsx:89-97 | with no cropped refresh and no teardown, letting time reach the pending deadline leaves the cropped image null while the component lives, and a null, string or array value never takes the component down meanwhile |
| Client.CroppedClearedWithinWindow | frontend/src/components/VideoStream.jsx:89-97 | the cropped image never outlives 500 ms after its last refresh: any quiet event sequence letting 500 ms pass ends with it null (the component staying mounted whenever the value is renderable) |
| Client.ProcessedShownOnceSet | frontend/src/components/VideoStream.jsx:110 | the processed region shows iff the component is mounted and a processed image was stored, and it stays shown while the component stays mounted |
| Client.CroppedRegion | frontend/src/components/VideoStream.jsx:113 | for a string, the cropped region shows iff the component is mounted, `showCropped` holds and the string contains `base64`; rendering throws iff the view is on and the value is truthy but neither a string nor an array; otherwise it is hidden whenever the toggle is off, the value falsy or the component gone |
| DataUri.SplitFirstComma | backend/main.py:42 | the split fails iff there is no comma; otherwise the header holds no comma and header, comma and payload rebuild the input |
| DataUri.SplitJoin | backend/main.py:42 | splitting a comma-free header joined to any payload (commas included) by a comma returns exactly that header and payload |
| DataUri.JpegRoundTrip | backend/main.py:42 | splitting the data URI built from base64 text yields the header `data:image/jpeg;base64` and that text |
| PySlice.Slice | backend/main.py:68 | a slice never raises, has the length the normalised bounds give, holds the elements from the normalised start on, and equals the plain subsequence when the bounds are in range |
| PySlice.NegativeStartWraps | backend/main.py:68 | a negative start is the same as the start counted from the end |
| PySlice.EmptyWhenStartPastStop | backend/main.py:68 | a start at or beyond the normalised stop gives an empty slice |
| Raster.SizeIsZeroIffFlat | backend/main.py:49 | `frame.size == 0` exactly when the image has no rows or no columns |
| Crop.Clamp | backend/main.py:63-67 | after clamping the minima are non-negative and the maxima within width and height; coordinates already in range are unchanged and the box only shrinks |
| Crop.Region | backend/main.py:68 | a two-axis slice has the row and column counts of the two Python slices and each pixel comes from the normalised origin plus its offset |
| Crop.CropAround | backend/main.py:68 | the margin crop is never larger than the frame in either dimension |
| Crop.CropInRangeIsExact | backend/main.py:68 | when all margins stay inside the frame the crop is (y_max-y_min+20) × (x_max-x_min+25) pixels taken from (y_min-10, x_min-10) |
| Crop.LeftEdgeCropIsEmpty | backend/main.py:68 | a box within ten pixels of the left edge makes the column start wrap to the right end, giving an empty crop unless the box reaches back to it |
| Crop.TopEdgeCropIsEmpty | backend/main.py:68 | the same on the top edge: the crop has no rows |
| Server.Count | backend/main.py:39-40 | every iteration adds one to both `fps_counter` and `frame_count`, and leaves `fps` and `prev_time` alone |
| Server.UpdateFps | backend/main.py:91-95 | once at least a second has passed since `prev_time`, `fps` takes the counter, the counter resets and `prev_time` becomes now; before that nothing changes; `frame_count` is never touched |
| Server.Decode | backend/main.py:42-51 | decoding raises iff the text has no comma or its payload is not valid base64; it skips iff it does not raise and OpenCV returns no image or one with no rows or no columns; a decoded frame has at least one row and one column and is what OpenCV decoded |
| Server.CropOf | backend/main.py:62-68 | the crop of a four-value box is never larger than the frame |
| Server.CroppedValue | backend/main.py:60-85 | `cropped` is `""` with no box, `None` when the crop is empty or its encoding fails, otherwise the data URI of the encoded crop; a box that is neither empty nor four values raises |
| Server.ProcessedUri | backend/main.py:98-107 | the processed frame is always sent as a JPEG data URI |
| Server.Iterate | backend/main.py:38-112 | an iteration closes iff the message raises (bad text or a box of wrong arity), skips iff no usable frame was decoded, and otherwise replies with an object holding exactly `processed`, the data URI of the detector's frame drawn with the updated `fps`, and `cropped`, the three-way value for the detector's box; without a reply only the counters move, with one the FPS window is updated |
| Server.Serve | backend/main.py:35-117 | a session runs at most one iteration per message, replies at most once per iteration, stops only by an exception, counts every iteration in `frame_count`, and every reply has the reply shape |
| Server.ServeRepliesOncePerFrame | backend/main.py:41-112 | the number of replies equals the number of consumed messages that decode to a frame without raising: each such message gets exactly one reply, and a skipped or raising one gets none |
| Server.ServeClosesAtFirstRaise | backend/main.py:35-117 | a session closes iff some message raises, and then right after the first one; every earlier message, skipped frames included, lets the loop continue to the next |
| Server.NoCommaEndsSession | backend/main.py:115-117 | a message with no comma ends the session at once with no reply |
| Server.FreshSessionCountsInFirstWindow | backend/main.py:30-40 | a session started at `now` whose messages all arrive within its first second keeps `fps` at 0 and has `fps_counter` and `frame_count` equal to the number of iterations run |
| Server.CounterWithinWindow | backend/main.py:91-95 | within one window every iteration, skipped frames included, adds one to `fps_counter` while `fps` and `prev_time` stay fixed |
| Server.WindowPublishesCount | backend/main.py:91-95 | a reply after the window elapsed publishes the counter including the current frame, resets it and restarts the window now |
| Pipeline.JpegUriContainsBase64 | frontend/src/components/VideoStream.jsx:113 | every JPEG data URI contains the `base64` tag the render check looks for |
| Pipeline.JpegUriIsTruthy | frontend/src/components/VideoStream.jsx:113 | a JPEG data URI is truthy and passes the render check |
| Pipeline.SentFrameReachesDecoder | backend/main.py:42-44 | a frame the browser sends splits into the JPEG header and its base64 text, so the server raises on it only if that text does not decode |
| Pipeline.ReplyUpdatesDisplay | frontend/src/components/VideoStream.jsx:35-36 | a server reply keeps the component mounted and always replaces the processed image; `""` or `None` as `cropped` leaves the cropped image and its timeout alone; a data URI replaces it and re-arms the timeout only when it differs |
| Pipeline.StepKeepsSlotsFromServer | frontend/src/components/VideoStream.jsx:31-40 | events whose messages come from the server keep both images null or JPEG data URIs and leave the component mounted unless the event is an unmount |
| Pipeline.SlotsRenderSafely | frontend/src/components/VideoStream.jsx:113 | with both images null or data URIs, rendering never throws and the cropped region shows iff mounted, toggled on and an image is held |
| Pipeline.ServerRepliesRenderSafely | frontend/src/components/VideoStream.jsx:110-113 | while the server is the only peer, every reachable state renders without throwing, shows the crop exactly when mounted, toggled on and held, and the component stays mounted exactly until an unmount event |

## Left out

- Camera acquisition (`getUserMedia`), `drawImage`, `toDataURL` and `play()`: browser APIs. The canvas encoder's output is the base64 text carried by a `Tick`; the 640×480 size and 0.7 quality are its concern.
- Real scheduling of `setInterval` and `setTimeout`: ticks are events with no time attached, so the 200 ms period is not modelled; the decay timeout fires within `Advance`.
- The WebSocket transport, FastAPI routing and CORS: network I/O. Messages are delivered only while the socket is open; JSON serialisation by `send_json` and parsing by `JSON.parse` are assumed to agree, so a `Message` carries the parsed value.
- Console logging and `print`: diagnostics only.
- `cv2.imdecode`, `cv2.imencode`, base64 encoding and decoding, and the detector's `findPosition` (its source is not part of this model): foreign calls, uninterpreted in `Server.Vision`. An `imdecode` or `findPosition` that raises, and a non-integer box, are not modelled.
- Latency (`time.time()` differences in floating point) and the `putText` drawing: floating point and drawing; only the FPS value fed to the overlay is kept.
- Server.UpdateFps: time is integer milliseconds, not the floating-point seconds of `time.time()`.
- Server.Serve: the end of the input sequence stands for the client disconnecting (`receive_text` raising); an exception from `receive_text` itself is not modelled separately.
- JSX markup, CSS, and the `App` shell.
- Client.QuietClearsAtDeadline: promises a null cropped image only while the component is still mounted, because a held value that is truthy and neither a string nor an array crashes the render and unmounts the component, and after that `croppedImage` is no longer observable.
- Client.CroppedClearedWithinWindow: mounted only for the same reason as Client.QuietClearsAtDeadline.
- Error boundaries and React's development-mode double rendering: the project has no boundary, so a render error unmounts the whole tree at once.

=== FILE: client.dfy ===
/** The `VideoStream` component as an event-driven reducer. Timers, the
    socket and the camera are replaced by explicit events on a logical
    millisecond clock; each event runs to completion, as on the browser's
    single event loop. */
module Client {
  import opened Wrappers
  import opened Json
  import DataUri

  /** The decay window of the cropped image, in milliseconds. */
  const DecayMs: nat := 500

  /** `WebSocket.readyState`. */
  datatype ReadyState = Connecting | Open | Closing | Closed {
    function Code(): (c: nat)
      ensures c <= 3
      ensures c == 1 <==> this == Open
    {
      match this
      case Connecting => 0
      case Open => 1
      case Closing => 2
      case Closed => 3
    }
  }

  /** The component's state. `videoRef`/`canvasRef` say whether each ref's
      `current` is set; `ws` is `ws.current` (`None` while it is `null`);
      `streaming` says whether `startStreaming` has set the interval;
      `decayDeadline` is the time the pending decay timeout fires. */
  datatype State = State(
    mounted: bool,
    videoRef: bool,
    canvasRef: bool,
    cameraPending: bool,
    ws: Option<ReadyState>,
    streaming: bool,
    processedImage: Json,
    croppedImage: Json,
    showCropped: bool,
    decayDeadline: Option<nat>,
    now: nat)

  /** Right after the first commit: refs attached, camera request in flight,
      both images `null`, cropped view hidden. */
  function Initial(): (s: State)
    ensures s.mounted && s.videoRef && s.canvasRef && s.cameraPending
    ensures s.ws.None? && !s.streaming && !s.showCropped
    ensures s.processedImage == JNull && s.croppedImage == JNull && s.decayDeadline.None?
    ensures Inv(s)
  {
    State(true, true, true, true, None, false, JNull, JNull, false, None, 0)
  }

  datatype Event =
    | CameraGranted            // getUserMedia resolves
    | CameraDenied             // getUserMedia rejects: logged only
    | SocketOpened             // the server accepts: onopen
    | SocketClosed             // the peer closes or the transport fails
    | Tick(frame: DataUri.Base64Text)  // the 200 ms interval fires; `frame` is
                                       // the base64 text the canvas would encode
    | Message(parsed: Option<Json>)    // onmessage; `None` when JSON.parse throws
    | Toggle                   // the Show/Hide button is clicked
    | Advance(ms: nat)         // time passes; the decay timeout fires if due
    | Unmount                  // the component is removed

  /** A step's new state and the text it sends, if any. */
  datatype Output = Output(state: State, sent: Option<string>)

  /** `sendFrame`'s guard: both refs set, a socket, and `readyState === 1`. */
  predicate SendGate(s: State) {
    s.videoRef && s.canvasRef && s.ws.Some? && s.ws.value.Code() == 1
  }

  /** One run of `sendFrame`, when the interval exists. */
  function OnTick(s: State, frame: DataUri.Base64Text): (o: Output)
    ensures o.state == s
    ensures o.sent.Some? <==> s.streaming && s.videoRef && s.canvasRef && s.ws == Some(Open)
    ensures o.sent.Some? ==> DataUri.SplitFirstComma(o.sent.value) == Some((DataUri.JpegHeader, frame))
  {
    if s.streaming && SendGate(s) then
      DataUri.JpegRoundTrip(frame);
      Output(s, Some(DataUri.JpegDataUri(frame)))
    else Output(s, None)
  }

  /** `setCroppedImage(v)` followed by the `[croppedImage]` effect. React
      skips the update when `Object.is` finds the value unchanged; otherwise
      the effect's cleanup cancels the pending timeout and, for a truthy
      value, a new one is armed `DecayMs` from now. */
  function SetCropped(s: State, v: Json): (t: State)
    ensures SameAsParsed(s.croppedImage, v) ==> t == s
    ensures !SameAsParsed(s.croppedImage, v) ==>
              t.croppedImage == v && t.decayDeadline == (if Truthy(v) then Some(s.now + DecayMs) else None)
    ensures t == s.(croppedImage := t.croppedImage, decayDeadline := t.decayDeadline)
  {
    if SameAsParsed(s.croppedImage, v) then s
    else s.(croppedImage := v, decayDeadline := if Truthy(v) then Some(s.now + DecayMs) else None)
  }

  /** The body of `onmessage` on a parsed value: a `null` value makes
      `data.processed` throw, which the `catch` swallows; otherwise each
      truthy field is stored, `processed` first. Once the component is gone
      React ignores the updates. */
  function OnData(s: State, data: Json): (t: State)
    ensures !s.mounted || data.JNull? ==> t == s
    ensures t == s.(processedImage := t.processedImage, croppedImage := t.croppedImage,
                    decayDeadline := t.decayDeadline)
    ensures s.mounted && TruthyLookup(Get(data, "processed")) ==>
              t.processedImage == Get(data, "processed").value
    ensures !TruthyLookup(Get(data, "processed")) ==> t.processedImage == s.processedImage
    ensures s.mounted && TruthyLookup(Get(data, "cropped")) ==>
              t == SetCropped(s.(processedImage := t.processedImage), Get(data, "cropped").value)
    ensures !TruthyLookup(Get(data, "cropped")) ==>
              t.croppedImage == s.croppedImage && t.decayDeadline == s.decayDeadline
  {
    if !s.mounted || data.JNull? then s
    else
      var p := Get(data, "processed");
      var c := Get(data, "cropped");
      var s1 := if TruthyLookup(p) then s.(processedImage := p.value) else s;
      if TruthyLookup(c) then SetCropped(s1, c.value) else s1
  }

  /** The clock moves `ms` forward; a decay timeout due by then fires and
      sets the cropped image to `null`, whose effect arms nothing. */
  function Elapse(s: State, ms: nat): (t: State)
    ensures t.now == s.now + ms
    ensures t.processedImage == s.processedImage && t.showCropped == s.showCropped
    ensures s.decayDeadline.Some? && s.decayDeadline.value <= s.now + ms ==>
              t.croppedImage == JNull && t.decayDeadline.None?
    ensures s.decayDeadline.None? || s.now + ms < s.decayDeadline.value ==>
              t.croppedImage == s.croppedImage && t.decayDeadline == s.decayDeadline
    ensures t == s.(now := t.now, croppedImage := t.croppedImage, decayDeadline := t.decayDeadline)
  {
    var t := s.now + ms;
    if s.decayDeadline.Some? && s.decayDeadline.value <= t then
      s.(now := t, croppedImage := JNull, decayDeadline := None)
    else s.(now := t)
  }

  /** `WebSocket.close()`: a socket still connecting or open starts closing;
      one already closing or closed is left alone. */
  function Close(r: ReadyState): (q: ReadyState)
    ensures q.Code() >= 2
    ensures r.Code() >= 2 ==> q == r
  {
    match r
    case Connecting => Closing
    case Open => Closing
    case Closing => Closing
    case Closed => Closed
  }

  /** Unmounting: the mount effect's cleanup closes the socket if there is
      one; React also runs the decay effect's cleanup (cancelling the
      timeout) and detaches the refs. The interval's cleanup was discarded,
      so `streaming` stays as it is. Unmounting twice changes nothing more. */
  function Teardown(s: State): (t: State)
    ensures !t.mounted && !t.videoRef && !t.canvasRef && t.decayDeadline.None?
    ensures t.streaming == s.streaming
    ensures t.ws.Some? <==> s.ws.Some?
    ensures s.ws.Some? ==> t.ws.value.Code() >= 2
    ensures t.processedImage == s.processedImage && t.croppedImage == s.croppedImage
    ensures Consistent(s) ==> Inv(t)
  {
    s.(mounted := false, videoRef := false, canvasRef := false,
       ws := if s.ws.Some? then Some(Close(s.ws.value)) else None,
       decayDeadline := None)
  }

  /** Whether a region is rendered; `RenderThrows` when evaluating the JSX
      condition throws. A component that is gone renders nothing. */
  datatype Visibility = Shown | Hidden | RenderThrows

  /** `{processedImage && <img …/>}`. */
  predicate ProcessedShown(s: State) {
    s.mounted && Truthy(s.processedImage)
  }

  /** `{showCropped && croppedImage && croppedImage.includes("base64") && …}`. */
  function CroppedRegion(s: State): (v: Visibility)
    ensures s.croppedImage.JStr? ==>
              (v == Shown <==> s.mounted && s.showCropped && Contains(s.croppedImage.s, "base64"))
    ensures v == RenderThrows <==>
              s.mounted && s.showCropped && Truthy(s.croppedImage) && !s.croppedImage.JStr? && !s.croppedImage.JArr?
    ensures !s.mounted || !s.showCropped || !Truthy(s.croppedImage) ==> v == Hidden
  {
    if !s.mounted || !s.showCropped || !Truthy(s.croppedImage) then Hidden
    else
      match CallIncludes(s.croppedImage, "base64")
      case None => RenderThrows
      case Some(b) => if b then Shown else Hidden
  }

  /** What every handler keeps: refs follow mounting, a socket implies the
      camera resolved, the interval implies a socket, each image is null or
      truthy, and a truthy cropped image of a mounted component has exactly
      one pending deadline at most `DecayMs` ahead. */
  ghost predicate Consistent(s: State) {
    && s.videoRef == s.mounted && s.canvasRef == s.mounted
    && (s.ws.Some? ==> !s.cameraPending)
    && (s.streaming ==> s.ws.Some?)
    && (s.processedImage == JNull || Truthy(s.processedImage))
    && (s.croppedImage == JNull || Truthy(s.croppedImage))
    && (s.mounted ==> (Truthy(s.croppedImage) <==> s.decayDeadline.Some?))
    && (!s.mounted ==> s.decayDeadline.None?)
    && (s.decayDeadline.Some? ==> s.now < s.decayDeadline.value <= s.now + DecayMs)
  }

  /** The invariant every reachable state keeps: consistent, and rendering
      it does not throw. */
  ghost predicate Inv(s: State) {
    Consistent(s) && CroppedRegion(s) != RenderThrows
  }

  /** The handler an event runs. A camera grant creates the socket even
      when the component is already gone; messages are delivered only while
      the socket is open; the button exists only while mounted. */
  function Dispatch(s: State, e: Event): (o: Output)
    ensures Consistent(s) ==> Consistent(o.state)
    ensures o.sent.Some? ==> e.Tick? && o.state == s
    ensures o.state.mounted ==> s.mounted
    ensures !e.Advance? ==> o.state.now == s.now
  {
    match e
    case CameraGranted =>
      if s.cameraPending then Output(s.(cameraPending := false, ws := Some(Connecting)), None)
      else Output(s, None)
    case CameraDenied =>
      Output(s.(cameraPending := false), None)
    case SocketOpened =>
      if s.ws == Some(Connecting) then Output(s.(ws := Some(Open), streaming := true), None)
      else Output(s, None)
    case SocketClosed =>
      if s.ws.Some? then Output(s.(ws := Some(Closed)), None) else Output(s, None)
    case Tick(frame) =>
      OnTick(s, frame)
    case Message(parsed) =>
      if s.ws == Some(Open) && parsed.Some? then Output(OnData(s, parsed.value), None)
      else Output(s, None)
    case Toggle =>
      if s.mounted then Output(s.(showCropped := !s.showCropped), None) else Output(s, None)
    case Advance(ms) =>
      Output(Elapse(s, ms), None)
    case Unmount =>
      Output(Teardown(s), None)
  }

  /** One event: its handler, then the re-render a state change causes. A
      render that throws is not caught by any error boundary, so React
      unmounts the tree, which runs the same cleanups as a teardown. */
  function Step(s: State, e: Event): (o: Output)
    ensures Inv(s) ==> Inv(o.state)
    ensures o.sent.Some? ==> e.Tick? && o.state == s
    ensures o.state.mounted ==> s.mounted
    ensures !e.Advance? ==> o.state.now == s.now
    ensures o.state != s ==> CroppedRegion(o.state) != RenderThrows
    ensures o.state.mounted ==> o.state == Dispatch(s, e).state
    ensures s.mounted && !o.state.mounted ==> e.Unmount? || o.state == Teardown(Dispatch(s, e).state)
    ensures e.Unmount? ==> o.state == Teardown(s)
  {
    var o := Dispatch(s, e);
    if o.state != s && CroppedRegion(o.state) == RenderThrows then Output(Teardown(o.state), o.sent)
    else o
  }

  /** The outcome of a sequence of events: the last state and every text
      sent, in order. */
  datatype Trace = Trace(last: State, sent: seq<string>)

  function Run(s: State, es: seq<Event>): (r: Trace)
    ensures |r.sent| <= |es|
    ensures Inv(s) ==> Inv(r.last)
    ensures r.last.mounted ==> s.mounted
    decreases |es|
  {
    if es == [] then Trace(s, [])
    else
      var o := Step(s, es[0]);
      var rest := Run(o.state, es[1..]);
      Trace(rest.last, (if o.sent.Some? then [o.sent.value] else []) + rest.sent)
  }

  /** A camera grant while the request is pending creates a connecting
      socket; the server accepting it opens it and starts the interval, and
      the next tick sends the frame as a JPEG data URI. */
  lemma {:induction false} GrantOpensAndStreams(s: State, frame: DataUri.Base64Text)
    requires Inv(s) && s.mounted && s.cameraPending
    ensures Step(s, CameraGranted).state.ws == Some(Connecting)
    ensures Step(s, CameraGranted).state.mounted && !Step(s, CameraGranted).state.cameraPending
    ensures Step(Step(s, CameraGranted).state, SocketOpened).state.ws == Some(Open)
    ensures Step(Step(s, CameraGranted).state, SocketOpened).state.streaming
    ensures Step(Step(Step(s, CameraGranted).state, SocketOpened).state, Tick(frame)).sent
              == Some(DataUri.JpegDataUri(frame))
  {
    var t := Step(s, CameraGranted).state;
    assert t == s.(cameraPending := false, ws := Some(Connecting));
    var u := Step(t, SocketOpened).state;
    assert u == t.(ws := Some(Open), streaming := true);
  }

  /** From mount, granting the camera and opening the socket lets the first
      tick send exactly one frame. */
  lemma FirstTickAfterOpenSends(frame: DataUri.Base64Text)
    ensures Run(Initial(), [CameraGranted, SocketOpened, Tick(frame)]).sent == [DataUri.JpegDataUri(frame)]
  {
    var es := [CameraGranted, SocketOpened, Tick(frame)];
    GrantOpensAndStreams(Initial(), frame);
    var t := Step(Initial(), CameraGranted).state;
    var u := Step(t, SocketOpened).state;
    assert es[1..] == [SocketOpened, Tick(frame)] && es[1..][1..] == [Tick(frame)] && es[1..][1..][1..] == [];
    assert Run(u, [Tick(frame)]).sent == [DataUri.JpegDataUri(frame)];
    assert Run(t, [SocketOpened, Tick(frame)]).sent == [DataUri.JpegDataUri(frame)];
  }

  /** The processed region appears with the first message carrying a truthy
      `processed` and never disappears while the component lives. */
  lemma ProcessedShownOnceSet(s: State, e: Event)
    requires Inv(s)
    ensures ProcessedShown(s) <==> s.mounted && s.processedImage != JNull
    ensures ProcessedShown(s) && Step(s, e).state.mounted ==> ProcessedShown(Step(s, e).state)
  {
  }

  /** A truthy `cropped` that is neither a string nor an array, arriving
      while the cropped view is on, makes the render throw: the component is
      unmounted, its socket starts closing, and nothing is sent afterwards. */
  lemma NonStringCroppedCrashes(s: State, data: Json, es: seq<Event>)
    requires Inv(s) && s.mounted && s.showCropped && s.ws == Some(Open)
    requires TruthyLookup(Get(data, "cropped"))
    requires !Get(data, "cropped").value.JStr? && !Get(data, "cropped").value.JArr?
    ensures !Step(s, Message(Some(data))).state.mounted
    ensures Step(s, Message(Some(data))).state.ws == Some(Closing)
    ensures Run(s, [Message(Some(data))] + es).sent == []
  {
    var t := Step(s, Message(Some(data))).state;
    assert ([Message(Some(data))] + es)[1..] == es;
    UnmountedNeverSends(t, es);
  }

  /** A parse error is caught and leaves no trace: the events after it are
      handled exactly as if it had never arrived. */
  lemma ParseErrorIsTransparent(s: State, es: seq<Event>)
    ensures Run(s, [Message(None)] + es) == Run(s, es)
  {
  }

  /** Once the component is gone nothing is ever sent again, whatever
      happens next (a late camera grant and a socket that then opens
      included): the detached refs block every tick. */
  lemma {:induction false} UnmountedNeverSends(s: State, es: seq<Event>)
    requires Inv(s) && !s.mounted
    ensures Run(s, es).sent == []
    decreases |es|
  {
    if es != [] {
      var o := Step(s, es[0]);
      assert o.sent.None?;
      UnmountedNeverSends(o.state, es[1..]);
    }
  }

  /** The `readyState` gate on its own: once the socket is closing or
      closed it never reopens and nothing is sent, even while the refs are
      still attached (a peer that hung up on a mounted component). */
  lemma {:induction false} ClosedSocketNeverSends(s: State, es: seq<Event>)
    requires Inv(s) && s.ws.Some? && s.ws.value.Code() >= 2
    ensures Run(s, es).sent == []
    ensures Run(s, es).last.ws.Some? && Run(s, es).last.ws.value.Code() >= 2
    decreases |es|
  {
    if es != [] {
      var o := Step(s, es[0]);
      assert o.sent.None? && o.state.ws.Some? && o.state.ws.value.Code() >= 2 by {
        if es[0].Tick? {
          assert s.ws != Some(Open);
        } else if es[0].Unmount? {
          assert Close(s.ws.value).Code() >= 2;
        }
      }
      ClosedSocketNeverSends(o.state, es[1..]);
    }
  }

  /** Teardown leaves the interval running but no send ever follows it. */
  lemma UnmountStopsSending(s: State, es: seq<Event>)
    requires Inv(s)
    ensures Step(s, Unmount).state.streaming == s.streaming
    ensures Run(s, [Unmount] + es).sent == []
  {
    assert ([Unmount] + es)[1..] == es;
    UnmountedNeverSends(Step(s, Unmount).state, es);
  }

  /** The button flips `showCropped` and nothing else: not the images, not
      the decay deadline, not the socket; a second click undoes the first.
      The one exception: showing a held value that is neither a string nor
      an array makes the render throw, which unmounts the component. */
  lemma ToggleOnlyFlips(s: State)
    requires Inv(s) && s.mounted
    ensures var flipped := s.(showCropped := !s.showCropped);
      CroppedRegion(flipped) != RenderThrows ==>
        && Step(s, Toggle).state == flipped
        && Step(Step(s, Toggle).state, Toggle).state == s
        && ProcessedShown(Step(s, Toggle).state) == ProcessedShown(s)
    ensures var flipped := s.(showCropped := !s.showCropped);
      CroppedRegion(flipped) == RenderThrows ==> Step(s, Toggle).state == Teardown(flipped)
  {
  }

  /** Events that cannot refresh the cropped image or cancel its timeout. */
  predicate Quiet(e: Event) {
    && !e.Unmount?
    && !(e.Message? && e.parsed.Some? && TruthyLookup(Get(e.parsed.value, "cropped")))
  }

  /** The time a sequence of events lets pass. */
  function Elapsed(es: seq<Event>): (t: nat)
    ensures es == [] ==> t == 0
    ensures es != [] ==> t == (if es[0].Advance? then es[0].ms else 0) + Elapsed(es[1..])
  {
    if es == [] then 0
    else (if es[0].Advance? then es[0].ms else 0) + Elapsed(es[1..])
  }

  /** A quiet event never stores a new cropped value: the handler keeps it
      or clears it, and the pending deadline stays unless it fired. */
  lemma QuietDispatch(s: State, e: Event)
    requires Inv(s) && s.mounted && Quiet(e)
    ensures var t := Dispatch(s, e).state;
      && t.mounted
      && (t.croppedImage == s.croppedImage || t.croppedImage == JNull)
      && (t.decayDeadline.Some? ==> t.decayDeadline == s.decayDeadline)
  {
    if e.Message? && e.parsed.Some? && s.ws == Some(Open) {
      assert !TruthyLookup(Get(e.parsed.value, "cropped"));
    }
  }

  /** A pending decay deadline reached by quiet events clears the cropped
      image while the component lives; and a cropped value that can be
      rendered (null, a string, an array) keeps it alive, so it is cleared. */
  lemma {:induction false} QuietClearsAtDeadline(s: State, es: seq<Event>)
    requires Inv(s) && s.mounted
    requires forall k | 0 <= k < |es| :: Quiet(es[k])
    requires s.decayDeadline.None? || s.decayDeadline.value <= s.now + Elapsed(es)
    ensures Run(s, es).last.mounted ==> Run(s, es).last.croppedImage == JNull
    ensures s.croppedImage.JNull? || s.croppedImage.JStr? || s.croppedImage.JArr? ==> Run(s, es).last.mounted
    decreases |es|
  {
    if es != [] {
      var e := es[0];
      var o := Step(s, e);
      assert Quiet(e);
      QuietDispatch(s, e);
      if o.state.mounted {
        assert o.state == Dispatch(s, e).state;
        assert o.state.decayDeadline.None? || o.state.decayDeadline.value <= o.state.now + Elapsed(es[1..]);
        assert forall k | 0 <= k < |es[1..]| :: Quiet(es[1..][k]) by {
          forall k | 0 <= k < |es[1..]|
            ensures Quiet(es[1..][k])
          {
            assert es[1..][k] == es[k + 1];
          }
        }
        QuietClearsAtDeadline(o.state, es[1..]);
      } else {
        // The re-render threw, so the held value is one `includes` rejects.
        assert CroppedRegion(Dispatch(s, e).state) == RenderThrows;
      }
    }
  }

  /** The cropped image never outlives the decay window: once `DecayMs`
      have passed with no refresh of it (and no teardown), it is `null`
      unless the component is gone, with no other event needed to clear it;
      a renderable value never takes the component down meanwhile. */
  lemma CroppedClearedWithinWindow(s: State, es: seq<Event>)
    requires Inv(s) && s.mounted
    requires forall k | 0 <= k < |es| :: Quiet(es[k])
    requires Elapsed(es) >= DecayMs
    ensures Run(s, es).last.mounted ==> Run(s, es).last.croppedImage == JNull
    ensures s.croppedImage.JNull? || s.croppedImage.JStr? || s.croppedImage.JArr? ==> Run(s, es).last.mounted
  {
    QuietClearsAtDeadline(s, es);
  }
}

=== FILE: crop.dfy ===
/** The server's treatment of a detected bounding box: clamping it to the
    frame and cutting out the region around it with fixed margins. */
module Crop {
  import opened Raster
  import opened PySlice

  /** `x_min, y_min, x_max, y_max = bbox`. */
  datatype Box = Box(xMin: int, yMin: int, xMax: int, yMax: int)

  /** Margins added around the box: ten pixels above, below and to the
      left, fifteen to the right. */
  const MarginTop: int := 10
  const MarginBottom: int := 10
  const MarginLeft: int := 10
  const MarginRight: int := 15

  /** `max(0, …)` on the minima and `min(width|height, …)` on the maxima.
      Only the outward side of each coordinate is clamped: a minimum past
      the far edge or a negative maximum is left as it is. */
  function Clamp(b: Box, width: nat, height: nat): (c: Box)
    ensures 0 <= c.xMin && 0 <= c.yMin && c.xMax <= width && c.yMax <= height
    ensures b.xMin <= c.xMin && b.yMin <= c.yMin && c.xMax <= b.xMax && c.yMax <= b.yMax
    ensures 0 <= b.xMin ==> c.xMin == b.xMin
    ensures 0 <= b.yMin ==> c.yMin == b.yMin
    ensures b.xMax <= width ==> c.xMax == b.xMax
    ensures b.yMax <= height ==> c.yMax == b.yMax
  {
    Box(if b.xMin < 0 then 0 else b.xMin,
        if b.yMin < 0 then 0 else b.yMin,
        if b.xMax > width then width else b.xMax,
        if b.yMax > height then height else b.yMax)
  }

  /** `frame[rowStart:rowStop, colStart:colStop]`: Python slicing on each axis. */
  function Region(f: Image, rowStart: int, rowStop: int, colStart: int, colStop: int): (g: Image)
    ensures g.Height() == Length(f.Height(), rowStart, rowStop)
    ensures g.width == Length(f.width, colStart, colStop)
    ensures forall i, j | 0 <= i < g.Height() && 0 <= j < g.width ::
              g.rows[i][j] == f.rows[Bound(rowStart, f.Height()) + i][Bound(colStart, f.width) + j]
  {
    var rows := Slice(f.rows, rowStart, rowStop);
    var g := Frame(Length(f.width, colStart, colStop),
                   seq(|rows|, i requires 0 <= i < |rows| => Slice(rows[i], colStart, colStop)));
    assert g.Rectangular() by {
      forall i | 0 <= i < |rows|
        ensures |g.rows[i]| == g.width
      {
        assert |rows[i]| == f.width;
      }
    }
    g
  }

  /** `frame[y_min-10:y_max+10, x_min-10:x_max+15]`. */
  function CropAround(f: Image, c: Box): (g: Image)
    ensures g.Height() <= f.Height() && g.width <= f.width
  {
    Region(f, c.yMin - MarginTop, c.yMax + MarginBottom, c.xMin - MarginLeft, c.xMax + MarginRight)
  }

  /** When every margin stays inside the frame the crop is exactly the box
      grown by its margins: (y_max-y_min+20) rows by (x_max-x_min+25) columns,
      starting at (y_min-10, x_min-10). */
  lemma CropInRangeIsExact(f: Image, c: Box)
    requires 0 <= c.yMin - MarginTop <= c.yMax + MarginBottom <= f.Height()
    requires 0 <= c.xMin - MarginLeft <= c.xMax + MarginRight <= f.width
    ensures CropAround(f, c).Height() == c.yMax - c.yMin + 20
    ensures CropAround(f, c).width == c.xMax - c.xMin + 25
    ensures forall i, j | 0 <= i < CropAround(f, c).Height() && 0 <= j < CropAround(f, c).width ::
              CropAround(f, c).rows[i][j] == f.rows[c.yMin - 10 + i][c.xMin - 10 + j]
  {
  }

  /** A box closer than ten pixels to the left edge makes the column start
      negative, so it wraps to the right end of the frame; unless the box
      reaches back to within that wrapped start the crop has no columns. */
  lemma LeftEdgeCropIsEmpty(f: Image, c: Box)
    requires MarginLeft <= f.width
    requires 0 <= c.xMin < MarginLeft
    requires 0 <= c.xMax + MarginRight <= f.width + c.xMin - MarginLeft
    ensures CropAround(f, c).width == 0
    ensures CropAround(f, c).Size() == 0
  {
  }

  /** The same on the top edge: the crop has no rows. */
  lemma TopEdgeCropIsEmpty(f: Image, c: Box)
    requires MarginTop <= f.Height()
    requires 0 <= c.yMin < MarginTop
    requires 0 <= c.yMax + MarginBottom <= f.Height() + c.yMin - MarginTop
    ensures CropAround(f, c).Height() == 0
    ensures CropAround(f, c).Size() == 0
  {
  }
}

=== FILE: data_uri.dfy ===
/** Data URIs as the two ends of the connection build and take apart: the
    browser's `toDataURL("image/jpeg", …)` and the server's
    `f"data:image/jpeg;base64,{…}"` build them, the server's
    `data.split(",", 1)` splits them. */
module DataUri {
  import opened Wrappers

  /** A character of the base64 alphabet of RFC 4648 section 4, padding included. */
  predicate IsBase64Char(c: char) {
    || 'A' <= c <= 'Z'
    || 'a' <= c <= 'z'
    || '0' <= c <= '9'
    || c == '+' || c == '/' || c == '='
  }

  /** The text a base64 encoder outputs. The encoder itself is a library
      call and is not modelled; only its alphabet is. */
  type Base64Text = s: string | forall i | 0 <= i < |s| :: IsBase64Char(s[i])
    witness ""

  /** The header both ends use for a JPEG image. */
  const JpegHeader: string := "data:image/jpeg;base64"

  /** The data URI of a JPEG image whose base64 text is `body`. */
  function JpegDataUri(body: Base64Text): (uri: string)
    ensures |uri| == |JpegHeader| + 1 + |body|
    ensures uri[..|JpegHeader|] == JpegHeader && uri[|JpegHeader|] == ','
    ensures uri[|JpegHeader| + 1..] == body
  {
    JpegHeader + "," + body
  }

  /** Python's `header, payload = s.split(",", 1)`: the header is the text
      before the first comma and the payload is the whole remainder. With
      no comma the split yields one piece and the unpacking raises
      (`None`). */
  function SplitFirstComma(s: string): (r: Option<(string, string)>)
    ensures r.None? <==> ',' !in s
    ensures r.Some? ==> ',' !in r.value.0 && s == r.value.0 + "," + r.value.1
    decreases |s|
  {
    if |s| == 0 then None
    else if s[0] == ',' then Some(("", s[1..]))
    else
      match SplitFirstComma(s[1..])
      case None => None
      case Some(hp) => Some(([s[0]] + hp.0, hp.1))
  }

  /** Splitting undoes joining with a comma, whatever the payload holds
      (commas included), provided the header has no comma. */
  lemma {:induction false} SplitJoin(header: string, payload: string)
    requires ',' !in header
    ensures SplitFirstComma(header + "," + payload) == Some((header, payload))
    decreases |header|
  {
    var s := header + "," + payload;
    if header != [] {
      assert s[0] == header[0] != ',';
      assert s[1..] == header[1..] + "," + payload;
      SplitJoin(header[1..], payload);
      assert [s[0]] + header[1..] == header;
    }
  }

  /** The server takes apart exactly what it and the browser build: the
      header `data:image/jpeg;base64` and the base64 text. */
  lemma JpegRoundTrip(body: Base64Text)
    ensures SplitFirstComma(JpegDataUri(body)) == Some((JpegHeader, body))
  {
    assert ',' !in JpegHeader by {
      assert forall i | 0 <= i < |JpegHeader| :: JpegHeader[i] != ',';
    }
    SplitJoin(JpegHeader, body);
  }
}

=== FILE: json.dfy ===
/** The JavaScript values that `JSON.parse` can produce, and the three
    pieces of JavaScript semantics the client's message handler and render
    code depend on: truthiness, property access, and `includes`. */
module Json {
  import opened Wrappers

  /** A parsed JSON value. Numbers are exact reals: only their being zero
      matters to the client. Object members are a map, because `JSON.parse`
      keeps the last of duplicated keys. */
  datatype Json =
    | JNull
    | JBool(b: bool)
    | JNum(n: real)
    | JStr(s: string)
    | JArr(items: seq<Json>)
    | JObj(members: map<string, Json>)

  /** JavaScript's ToBoolean: `null`, `false`, `0` and `""` are falsy,
      every other parsed value (including `[]` and `{}`) is truthy. */
  predicate Truthy(v: Json) {
    match v
    case JNull => false
    case JBool(b) => b
    case JNum(n) => n != 0.0
    case JStr(s) => s != ""
    case JArr(_) => true
    case JObj(_) => true
  }

  /** The outcome of reading `v.key`. */
  datatype Lookup = ThrowsTypeError | Undefined | Found(value: Json)

  /** Reading a property: on `null` it throws a TypeError; on an object it
      yields the member or `undefined`; on any other parsed value (a
      primitive or an array) the properties read here do not exist. */
  function Get(v: Json, key: string): (r: Lookup)
    ensures r.ThrowsTypeError? <==> v.JNull?
    ensures r.Found? <==> v.JObj? && key in v.members
    ensures r.Found? ==> r.value == v.members[key]
  {
    match v
    case JNull => ThrowsTypeError
    case JObj(m) => if key in m then Found(m[key]) else Undefined
    case _ => Undefined
  }

  /** `if (v.key)`: true exactly when the property exists and is truthy. */
  predicate TruthyLookup(l: Lookup) {
    l.Found? && Truthy(l.value)
  }

  /** `Object.is(stored, parsed)` where `parsed` was just produced by
      `JSON.parse`: a freshly parsed array or object is a new reference and
      is never identical to a stored one; primitives compare by value. */
  predicate SameAsParsed(stored: Json, parsed: Json) {
    stored == parsed && !parsed.JArr? && !parsed.JObj?
  }

  /** `t` occurs in `s` starting at index `i`. */
  predicate OccursAt(s: string, t: string, i: int) {
    0 <= i && i + |t| <= |s| && s[i..i + |t|] == t
  }

  /** `String.prototype.includes`: `t` is a substring of `s`. */
  predicate Contains(s: string, t: string) {
    exists i | 0 <= i <= |s| - |t| :: OccursAt(s, t, i)
  }

  /** Calling `v.includes(needle)`. Strings search for a substring, arrays
      for an element equal to the string (SameValueZero); on any other
      value `includes` is not a function and the call throws (`None`). */
  function CallIncludes(v: Json, needle: string): (r: Option<bool>)
    ensures r.None? <==> !v.JStr? && !v.JArr?
    ensures v.JStr? ==> r == Some(Contains(v.s, needle))
    ensures v.JArr? ==> r == Some(JStr(needle) in v.items)
  {
    match v
    case JStr(s) => Some(Contains(s, needle))
    case JArr(items) => Some(JStr(needle) in items)
    case _ => None
  }
}

=== FILE: pipeline.dfy ===
/** The two ends of the connection together: what the browser sends is
    what the server takes apart, and what the server replies is what the
    browser's message handler and render code accept. */
module Pipeline {
  import opened Wrappers
  import opened Json
  import DataUri
  import Server
  import opened Client

  /** Every JPEG data URI carries the `base64` tag the render check
      looks for. */
  lemma JpegUriContainsBase64(body: DataUri.Base64Text)
    ensures Contains(DataUri.JpegDataUri(body), "base64")
  {
    assert OccursAt(DataUri.JpegDataUri(body), "base64", 16);
  }

  lemma JpegUriIsTruthy(uri: string)
    requires Server.IsJpegUri(uri)
    ensures Truthy(JStr(uri)) && Contains(uri, "base64")
  {
    var b: DataUri.Base64Text :| uri == DataUri.JpegDataUri(b);
    JpegUriContainsBase64(b);
  }

  /** A frame the browser sends reaches the server's base64 decoder whole:
      the header never makes the server raise, only an undecodable base64
      text can. */
  lemma SentFrameReachesDecoder(s: State, frame: DataUri.Base64Text, v: Server.Vision)
    requires Step(s, Tick(frame)).sent.Some?
    ensures DataUri.SplitFirstComma(Step(s, Tick(frame)).sent.value) == Some((DataUri.JpegHeader, frame))
    ensures Server.Decode(Step(s, Tick(frame)).sent.value, v).Raised? <==> v.b64decode(frame).None?
  {
  }

  /** How the browser takes a server reply: `processed` always replaces the
      processed image; a `cropped` of `""` or `null` leaves the cropped
      image and its timeout alone; a data URI replaces it and, when it
      differs from the one shown, re-arms a single timeout. */
  lemma ReplyUpdatesDisplay(s: State, reply: Json)
    requires Server.IsReply(reply)
    requires Inv(s) && s.mounted && s.ws == Some(Open)
    ensures var t := Step(s, Message(Some(reply))).state;
      && t.mounted
      && t.processedImage == reply.members["processed"]
      && t.showCropped == s.showCropped
      && (reply.members["cropped"] in {JStr(""), JNull} ==>
            t.croppedImage == s.croppedImage && t.decayDeadline == s.decayDeadline)
      && (reply.members["cropped"] !in {JStr(""), JNull} ==>
            t.croppedImage == reply.members["cropped"]
            && (s.croppedImage != reply.members["cropped"] ==> t.decayDeadline == Some(s.now + DecayMs))
            && (s.croppedImage == reply.members["cropped"] ==> t.decayDeadline == s.decayDeadline))
  {
  }

  /** Both image slots hold `null` or a JPEG data URI. */
  ghost predicate SlotsFromServer(s: State) {
    && (s.processedImage == JNull || (s.processedImage.JStr? && Server.IsJpegUri(s.processedImage.s)))
    && (s.croppedImage == JNull || (s.croppedImage.JStr? && Server.IsJpegUri(s.croppedImage.s)))
  }

  /** Events whose messages, if any, are server replies or unparsable text. */
  ghost predicate FromServer(e: Event) {
    e.Message? ==> e.parsed.None? || Server.IsReply(e.parsed.value)
  }

  /** One event from the server keeps both slots holding data URIs, and
      never takes the component down: only an explicit unmount does. */
  lemma StepKeepsSlotsFromServer(s: State, e: Event)
    requires SlotsFromServer(s) && FromServer(e)
    ensures SlotsFromServer(Step(s, e).state)
    ensures Step(s, e).state.mounted <==> s.mounted && !e.Unmount?
  {
  }

  /** With both slots holding data URIs, rendering never throws and the
      cropped region is shown exactly when toggled on and an image is held. */
  lemma SlotsRenderSafely(s: State)
    requires SlotsFromServer(s)
    ensures CroppedRegion(s) != RenderThrows
    ensures CroppedRegion(s) == Shown <==> s.mounted && s.showCropped && s.croppedImage != JNull
  {
    if s.croppedImage != JNull {
      JpegUriIsTruthy(s.croppedImage.s);
    }
  }

  /** While the server is the only peer, every state reached renders
      safely: every data URI it sends passes the `base64` check, and the
      component stays mounted until it is explicitly unmounted. */
  lemma {:induction false} ServerRepliesRenderSafely(s: State, es: seq<Event>)
    requires SlotsFromServer(s)
    requires forall k | 0 <= k < |es| :: FromServer(es[k])
    ensures SlotsFromServer(Run(s, es).last)
    ensures CroppedRegion(Run(s, es).last) != RenderThrows
    ensures CroppedRegion(Run(s, es).last) == Shown <==>
              Run(s, es).last.mounted && Run(s, es).last.showCropped && Run(s, es).last.croppedImage != JNull
    ensures Run(s, es).last.mounted <==> s.mounted && forall k | 0 <= k < |es| :: !es[k].Unmount?
    decreases |es|
  {
    if es == [] {
      SlotsRenderSafely(s);
    } else {
      StepKeepsSlotsFromServer(s, es[0]);
      assert forall k | 0 <= k < |es[1..]| :: FromServer(es[1..][k]) by {
        forall k | 0 <= k < |es[1..]|
          ensures FromServer(es[1..][k])
        {
          assert es[1..][k] == es[k + 1];
        }
      }
      ServerRepliesRenderSafely(Step(s, es[0]).state, es[1..]);
      assert (forall k | 0 <= k < |es| :: !es[k].Unmount?) <==>
             !es[0].Unmount? && forall k | 0 <= k < |es[1..]| :: !es[1..][k].Unmount?;
    }
  }
}

=== FILE: py_slice.dfy ===
/** Python's slice `s[start:stop]` with step 1, the semantics numpy uses
    on each axis of an array (section 3.2 "Sequences" and the `slice.indices`
    rules of the Python language reference). */
module PySlice {

  /** Where a slice bound lands in a sequence of length `len`: a negative
      bound counts from the end, and the result is clamped to `0..len`. */
  function Bound(i: int, len: nat): (r: nat)
    ensures r <= len
    ensures 0 <= i <= len ==> r == i
    ensures i < 0 && 0 <= len + i ==> r == len + i
    ensures len + i < 0 ==> r == 0
    ensures len < i ==> r == len
  {
    if i < 0 then (if len + i < 0 then 0 else len + i)
    else if i > len then len
    else i
  }

  /** The number of elements `s[start:stop]` has when `|s| == len`. */
  function Length(len: nat, start: int, stop: int): (n: nat)
    ensures n <= len
    ensures n == 0 <==> Bound(stop, len) <= Bound(start, len)
    ensures n > 0 ==> n == Bound(stop, len) - Bound(start, len)
  {
    var lo := Bound(start, len);
    var hi := Bound(stop, len);
    if lo < hi then hi - lo else 0
  }

  /** `s[start:stop]`: never raises, whatever the bounds. */
  function Slice<T>(s: seq<T>, start: int, stop: int): (r: seq<T>)
    ensures |r| == Length(|s|, start, stop)
    ensures forall k | 0 <= k < |r| :: r[k] == s[Bound(start, |s|) + k]
    ensures 0 <= start <= stop <= |s| ==> r == s[start..stop]
  {
    var lo := Bound(start, |s|);
    var hi := Bound(stop, |s|);
    if lo < hi then s[lo..hi] else []
  }

  /** A negative start counts from the end: `s[-k:stop]` is `s[len-k:stop]`. */
  lemma NegativeStartWraps<T>(s: seq<T>, start: int, stop: int)
    requires start < 0 <= |s| + start
    ensures Slice(s, start, stop) == Slice(s, |s| + start, stop)
  {
  }

  /** A start at or past the (normalised) stop gives an empty slice rather
      than an error. */
  lemma EmptyWhenStartPastStop<T>(s: seq<T>, start: int, stop: int)
    requires Bound(stop, |s|) <= Bound(start, |s|)
    ensures Slice(s, start, stop) == []
  {
  }
}

=== FILE: raster.dfy ===
/** Decoded images as numpy holds them after `cv2.imdecode(…,
    cv2.IMREAD_COLOR)`: a height × width array of three-channel BGR pixels. */
module Raster {

  newtype byte = x: int | 0 <= x < 256

  /** The bytes of an encoded image (a JPEG file, a base64 decoding). */
  type Bytes = seq<byte>

  /** `IMREAD_COLOR` always yields three channels. */
  const Channels: nat := 3

  datatype Pixel = Bgr(b: byte, g: byte, r: byte)

  /** An array of rows; `width` is kept apart from the rows so that an
      array with no rows still has a column count, as in numpy. */
  datatype Frame = Frame(width: nat, rows: seq<seq<Pixel>>) {

    predicate Rectangular() {
      forall i | 0 <= i < |rows| :: |rows[i]| == width
    }

    function Height(): nat {
      |rows|
    }

    /** numpy's `frame.size`: the number of elements. */
    function Size(): nat {
      |rows| * width * Channels
    }
  }

  type Image = f: Frame | f.Rectangular() witness Frame(0, [])

  /** `frame.size == 0` exactly when the image has no rows or no columns. */
  lemma SizeIsZeroIffFlat(f: Frame)
    ensures f.Size() == 0 <==> f.Height() == 0 || f.width == 0
  {
  }
}

=== FILE: server.dfy ===
/** One WebSocket session of the processing service: the body of the
    `while True` loop in `video_stream`, and the loop as a whole over the
    sequence of text messages the client sends. */
module Server {
  import opened Wrappers
  import opened Json
  import opened Raster
  import opened Crop
  import DataUri

  /** The foreign calls one iteration makes, left uninterpreted.
      `b64decode` yields `None` when it raises (bad padding); `imdecode`
      yields `None` when OpenCV returns `None`; `findPosition` returns the
      bounding box (possibly empty) and the frame it drew on; `drawFps`
      stands for the `putText` overlays; `imencode` returns its success
      flag and buffer. */
  datatype Vision = Vision(
    b64decode: string -> Option<Bytes>,
    imdecode: Bytes -> Option<Image>,
    findPosition: Image -> (seq<int>, Image),
    drawFps: (Image, nat) -> Image,
    imencode: Image -> (bool, Bytes),
    b64encode: Bytes -> DataUri.Base64Text)

  /** The FPS window, in milliseconds. */
  const WindowMs: int := 1000

  /** The loop's local variables: `prev_time` (integer milliseconds),
      `fps_counter`, `fps`, `frame_count`. */
  datatype Loop = Loop(prevTime: int, fpsCounter: nat, fps: nat, frameCount: nat)

  /** The state right after `websocket.accept()` at time `now`. */
  function Start(now: int): (l: Loop)
    ensures l.prevTime == now && l.fpsCounter == 0 && l.fps == 0 && l.frameCount == 0
  {
    Loop(now, 0, 0, 0)
  }

  /** What an iteration ends in: one reply, `continue` without a reply, or
      an exception that leaves the loop and closes the socket. */
  datatype Outcome = Reply(message: Json) | Skip | Close

  datatype Iteration = Iteration(loop: Loop, outcome: Outcome)

  /** The two increments at the top of every iteration. */
  function Count(l: Loop): (m: Loop)
    ensures m.fpsCounter == l.fpsCounter + 1 && m.frameCount == l.frameCount + 1
    ensures m.prevTime == l.prevTime && m.fps == l.fps
  {
    l.(fpsCounter := l.fpsCounter + 1, frameCount := l.frameCount + 1)
  }

  /** The FPS update: once at least a window has passed since `prev_time`,
      publish the counter as `fps` and start a new window at `now`. */
  function UpdateFps(l: Loop, now: int): (m: Loop)
    ensures m.frameCount == l.frameCount
    ensures now - l.prevTime >= WindowMs ==> m.fps == l.fpsCounter && m.fpsCounter == 0 && m.prevTime == now
    ensures now - l.prevTime < WindowMs ==> m == l
  {
    if now - l.prevTime >= WindowMs then l.(fps := l.fpsCounter, fpsCounter := 0, prevTime := now)
    else l
  }

  /** What the inbound text decodes to. */
  datatype Decoded = Raised | NoFrame | Decoded(frame: Image)

  /** Split at the first comma, base64-decode the payload, decode the image.
      A missing comma or a bad base64 payload raises; an image OpenCV cannot
      decode, or an empty one, is no frame. */
  function Decode(data: string, v: Vision): (d: Decoded)
    ensures d.Raised? <==>
              DataUri.SplitFirstComma(data).None? || v.b64decode(DataUri.SplitFirstComma(data).value.1).None?
    ensures d.Decoded? ==> d.frame.Height() > 0 && d.frame.width > 0
    ensures d.NoFrame? <==>
              && !d.Raised?
              && var img := v.imdecode(v.b64decode(DataUri.SplitFirstComma(data).value.1).value);
                 img.None? || img.value.Height() == 0 || img.value.width == 0
    ensures d.Decoded? ==> Some(d.frame) == v.imdecode(v.b64decode(DataUri.SplitFirstComma(data).value.1).value)
  {
    match DataUri.SplitFirstComma(data)
    case None => Raised
    case Some(hp) =>
      match v.b64decode(hp.1)
      case None => Raised
      case Some(bytes) =>
        match v.imdecode(bytes)
        case None => NoFrame
        case Some(frame) =>
          Raster.SizeIsZeroIffFlat(frame);
          if frame.Size() == 0 then NoFrame else Decoded(frame)
  }

  /** `x_min, y_min, x_max, y_max = bbox`, clamped to the frame and cropped
      with margins. */
  function CropOf(bbox: seq<int>, frame: Image): (g: Image)
    requires |bbox| == 4
    ensures g.Height() <= frame.Height() && g.width <= frame.width
  {
    CropAround(frame, Clamp(Box(bbox[0], bbox[1], bbox[2], bbox[3]), frame.width, frame.Height()))
  }

  /** The text of a JPEG data URI, as both ends build it. */
  ghost predicate IsJpegUri(s: string) {
    exists b: DataUri.Base64Text :: s == DataUri.JpegDataUri(b)
  }

  /** The three values the `cropped` key can carry: `""` (no box),
      `None` (empty crop or failed encoding), or a JPEG data URI. */
  ghost predicate IsCroppedValue(j: Json) {
    j == JStr("") || j == JNull || (j.JStr? && IsJpegUri(j.s))
  }

  /** Every reply the server sends: an object with exactly the keys
      `processed` (a JPEG data URI) and `cropped`. */
  ghost predicate IsReply(j: Json) {
    && j.JObj?
    && j.members.Keys == {"processed", "cropped"}
    && j.members["processed"].JStr? && IsJpegUri(j.members["processed"].s)
    && IsCroppedValue(j.members["cropped"])
  }

  /** The value of the `cropped` key; `None` when unpacking a box that is
      neither empty nor four values long raises. */
  function CroppedValue(bbox: seq<int>, frame: Image, v: Vision): (r: Option<Json>)
    ensures r.None? <==> |bbox| != 0 && |bbox| != 4
    ensures |bbox| == 0 ==> r == Some(JStr(""))
    ensures |bbox| == 4 ==>
              (r == Some(JNull) <==> CropOf(bbox, frame).Size() == 0 || !v.imencode(CropOf(bbox, frame)).0)
    ensures |bbox| == 4 && r != Some(JNull) ==>
              r == Some(JStr(DataUri.JpegDataUri(v.b64encode(v.imencode(CropOf(bbox, frame)).1))))
    ensures r.Some? ==> IsCroppedValue(r.value)
  {
    if |bbox| == 0 then Some(JStr(""))
    else if |bbox| != 4 then None
    else
      var crop := CropOf(bbox, frame);
      if crop.Size() == 0 then Some(JNull)
      else
        var (ok, buffer) := v.imencode(crop);
        if ok then Some(JStr(DataUri.JpegDataUri(v.b64encode(buffer)))) else Some(JNull)
  }

  /** The processed frame: the detector's drawing with the FPS overlay,
      encoded whatever `imencode` reports. */
  function ProcessedUri(frame: Image, fps: nat, v: Vision): (uri: string)
    ensures IsJpegUri(uri)
  {
    var (_, buffer) := v.imencode(v.drawFps(frame, fps));
    DataUri.JpegDataUri(v.b64encode(buffer))
  }

  /** An iteration on `data` raises: the text does not decode, or the
      detector's box is neither empty nor four values long. Whether it does
      depends on the text alone, not on the loop's counters. */
  predicate Raises(data: string, v: Vision) {
    || Decode(data, v).Raised?
    || (Decode(data, v).Decoded? && |v.findPosition(Decode(data, v).frame).0| !in {0, 4})
  }

  /** One iteration of the loop on the text `data`, received at time `now`. */
  function Iterate(l: Loop, data: string, now: int, v: Vision): (it: Iteration)
    ensures it.loop.frameCount == l.frameCount + 1
    ensures it.outcome.Close? <==> Raises(data, v)
    ensures it.outcome.Skip? <==> Decode(data, v).NoFrame?
    ensures !it.outcome.Reply? ==> it.loop == Count(l)
    ensures it.outcome.Reply? ==> it.loop == UpdateFps(Count(l), now)
    ensures it.outcome.Reply? ==> IsReply(it.outcome.message)
    ensures it.outcome.Reply? ==>
              && Decode(data, v).Decoded?
              && var found := v.findPosition(Decode(data, v).frame);
                 && it.outcome.message.members["cropped"] == CroppedValue(found.0, found.1, v).value
                 && it.outcome.message.members["processed"] == JStr(ProcessedUri(found.1, it.loop.fps, v))
  {
    var counted := Count(l);
    match Decode(data, v)
    case Raised => Iteration(counted, Close)
    case NoFrame => Iteration(counted, Skip)
    case Decoded(frame) =>
      var (bbox, drawn) := v.findPosition(frame);
      match CroppedValue(bbox, drawn, v)
      case None => Iteration(counted, Close)
      case Some(cropped) =>
        var updated := UpdateFps(counted, now);
        Iteration(updated, Reply(JObj(map["processed" := JStr(ProcessedUri(drawn, updated.fps, v)),
                                          "cropped" := cropped])))
  }

  /** One inbound text message and the time of the FPS check it leads to. */
  datatype Input = Input(data: string, now: int)

  /** The result of a session: the final loop state, the replies in order,
      how many iterations ran, and whether an exception closed the socket. */
  datatype Session = Session(loop: Loop, replies: seq<Json>, iterations: nat, closed: bool)

  /** The loop over the inputs, until they run out or an iteration raises. */
  function Serve(l: Loop, inputs: seq<Input>, v: Vision): (s: Session)
    ensures |s.replies| <= s.iterations <= |inputs|
    ensures !s.closed ==> s.iterations == |inputs|
    ensures s.closed ==> s.iterations >= 1
    ensures s.loop.frameCount == l.frameCount + s.iterations
    ensures forall k | 0 <= k < |s.replies| :: IsReply(s.replies[k])
    decreases |inputs|
  {
    if inputs == [] then Session(l, [], 0, false)
    else
      var it := Iterate(l, inputs[0].data, inputs[0].now, v);
      match it.outcome
      case Close => Session(it.loop, [], 1, true)
      case Skip =>
        var rest := Serve(it.loop, inputs[1..], v);
        rest.(iterations := rest.iterations + 1)
      case Reply(m) =>
        var rest := Serve(it.loop, inputs[1..], v);
        rest.(replies := [m] + rest.replies, iterations := rest.iterations + 1)
  }

  /** A session closes exactly when some message raises, and then right
      after the first such message: every earlier message, skipped frames
      included, lets the loop go on to the next one. */
  lemma {:induction false} ServeClosesAtFirstRaise(l: Loop, inputs: seq<Input>, v: Vision)
    ensures Serve(l, inputs, v).closed <==> exists k | 0 <= k < |inputs| :: Raises(inputs[k].data, v)
    ensures Serve(l, inputs, v).closed ==> Raises(inputs[Serve(l, inputs, v).iterations - 1].data, v)
    ensures forall k | 0 <= k < Serve(l, inputs, v).iterations - 1 :: !Raises(inputs[k].data, v)
    decreases |inputs|
  {
    if inputs != [] {
      var it := Iterate(l, inputs[0].data, inputs[0].now, v);
      if !it.outcome.Close? {
        var rest := inputs[1..];
        ServeClosesAtFirstRaise(it.loop, rest, v);
        assert forall k | 0 <= k < |rest| :: rest[k] == inputs[k + 1];
        if exists k | 0 <= k < |inputs| :: Raises(inputs[k].data, v) {
          var k :| 0 <= k < |inputs| && Raises(inputs[k].data, v);
          assert k > 0 && Raises(rest[k - 1].data, v);
        }
      }
    }
  }

  /** An iteration on `data` sends a reply: a frame was decoded and the
      box was unpacked without raising. */
  predicate Replies(data: string, v: Vision) {
    Decode(data, v).Decoded? && !Raises(data, v)
  }

  /** How many of the inputs lead to a reply. */
  function ReplyCount(inputs: seq<Input>, v: Vision): (n: nat)
    ensures n <= |inputs|
  {
    if inputs == [] then 0
    else (if Replies(inputs[0].data, v) then 1 else 0) + ReplyCount(inputs[1..], v)
  }

  /** Every message the loop consumed gets exactly one reply when it decodes
      to a frame and does not raise, and none otherwise. */
  lemma {:induction false} ServeRepliesOncePerFrame(l: Loop, inputs: seq<Input>, v: Vision)
    ensures |Serve(l, inputs, v).replies| == ReplyCount(inputs[..Serve(l, inputs, v).iterations], v)
    decreases |inputs|
  {
    if inputs != [] {
      var it := Iterate(l, inputs[0].data, inputs[0].now, v);
      var s := Serve(l, inputs, v);
      assert it.outcome.Reply? <==> Replies(inputs[0].data, v);
      if it.outcome.Close? {
        assert inputs[..s.iterations] == [inputs[0]];
      } else {
        var r := Serve(it.loop, inputs[1..], v);
        ServeRepliesOncePerFrame(it.loop, inputs[1..], v);
        assert inputs[..s.iterations][1..] == inputs[1..][..r.iterations];
      }
    }
  }

  /** A message with no comma closes the session at once: nothing sent
      after it is read and no reply is sent for it. */
  lemma NoCommaEndsSession(l: Loop, inputs: seq<Input>, v: Vision)
    requires |inputs| > 0 && ',' !in inputs[0].data
    ensures Serve(l, inputs, v).closed
    ensures Serve(l, inputs, v).iterations == 1
    ensures Serve(l, inputs, v).replies == []
  {
  }

  /** A fresh session whose messages all arrive within its first second
      publishes no FPS yet and counts every iteration. */
  lemma FreshSessionCountsInFirstWindow(now: int, inputs: seq<Input>, v: Vision)
    requires forall k | 0 <= k < |inputs| :: inputs[k].now - now < WindowMs
    ensures Serve(Start(now), inputs, v).loop.fps == 0
    ensures Serve(Start(now), inputs, v).loop.fpsCounter == Serve(Start(now), inputs, v).iterations
    ensures Serve(Start(now), inputs, v).loop.frameCount == Serve(Start(now), inputs, v).iterations
  {
    CounterWithinWindow(Start(now), inputs, v);
  }

  /** Within one FPS window every iteration, skipped or not, adds one to
      `fps_counter`, and `fps` and `prev_time` stay as they were. */
  lemma {:induction false} CounterWithinWindow(l: Loop, inputs: seq<Input>, v: Vision)
    requires forall k | 0 <= k < |inputs| :: inputs[k].now - l.prevTime < WindowMs
    ensures Serve(l, inputs, v).loop.fpsCounter == l.fpsCounter + Serve(l, inputs, v).iterations
    ensures Serve(l, inputs, v).loop.fps == l.fps
    ensures Serve(l, inputs, v).loop.prevTime == l.prevTime
    decreases |inputs|
  {
    if inputs != [] {
      var it := Iterate(l, inputs[0].data, inputs[0].now, v);
      assert it.loop == Count(l);
      if !it.outcome.Close? {
        CounterWithinWindow(it.loop, inputs[1..], v);
      }
    }
  }

  /** A reply sent once the window has elapsed publishes the frames counted
      in the window, the current one included, and opens a new window. */
  lemma WindowPublishesCount(l: Loop, data: string, now: int, v: Vision)
    requires now - l.prevTime >= WindowMs
    requires Iterate(l, data, now, v).outcome.Reply?
    ensures Iterate(l, data, now, v).loop.fps == l.fpsCounter + 1
    ensures Iterate(l, data, now, v).loop.fpsCounter == 0
    ensures Iterate(l, data, now, v).loop.prevTime == now
  {
  }
}

=== FILE: wrappers.dfy ===
/** The optional-value datatype shared by every module of the model. */
module Wrappers {

  /** `None` stands for an absent value: a JavaScript `undefined`, a Python
      `None`, or a foreign call that raised. */
  datatype Option<+T> = None | Some(value: T)
}
